=== FILE: README.md ===
# acmclient protocol core in Dafny

A model of the client side of the ACM configuration client (`acmclient`): the
identifier checks, server discovery with its per-unit cache, request signing
and headers, the one-shot `getconfig` fetch and the long-poll subscription loop.
The network, the clock, `random.choice`, MD5 and HMAC-SHA1 are inputs to the
model, never computed by it.

Layout, one module per file:

- `results.dfy` (`Results`): `Option`, `Result` and one `Error` constructor per exception the client can raise.
- `text.dfy` (`Text`): `str.split`, `str.join`, `str(int)` and `hexdigest()`, with their inverses.
- `constants.dfy` (`Constants`): the unit, separator, path and header names.
- `utils.dfy` (`Utils`): `acmclient/utils.py`, which holds the identifier checks, the content fingerprint and the `Crypto` primitives.
- `http.dfy` (`Http`): requests and replies as data. The network is a function from request to reply.
- `server_list.dfy` (`ServerList`): `ServerListManager`.
- `acm_client.dfy` (`AcmClient`): the client state record, construction, signing, headers, URLs, the probe payload and `getconfig`.
- `subscription.dfy` (`Subscription`): `subscribe`, `unsubscribe`, `_start_long_pulling` and `_check_server_config_info`.
- `scenarios.dfy` (`Scenarios`): worked examples on concrete inputs.

How the model is built:

- The client's attributes form one immutable `Client` record. This includes the server-list cache, which Python keeps in one class-level dict mutated in place. It also includes the current server IP and the cached content, which start as class attributes but are assigned through `self`, so each instance gets its own copy on first write.
- Every operation maps a client to a new client plus a result. When Python raises, the model returns the client as it stood at that moment, so partial effects stay visible. For example, `getconfig` has already recorded its new target when the transport fails.
- Each signed request gets an `Exchange`, which holds three inputs: the network, the millisecond clock reading and the index used for `random.choice`.
- The subscription loop consumes a finite sequence of rounds. A round holds the probe exchange, the re-fetch exchange, and whether another thread called `unsubscribe` during that iteration.
- The loop ends in one of three states: `Returned`, `Raised(error)`, or `Polling`. `Polling` means the rounds ran out while the client was still subscribed.

Behaviour of the code worth knowing, which the model follows as written:

- **Discovery parsing.** `fetch_server_list` removes only the first `""` from `text.split('\n')`; any later empty entry stays in the host list. It raises `ValueError` when the body has no blank line, for example a one-line body without a trailing newline. `ServerList.ParseServerList` models the code. `Scenarios.ParseKeepsLaterBlank` and `Scenarios.ParseRefusals` show both effects.
- **Polling flag after an error.** `_is_long_pulling` stays set when an exception escapes the loop, so every later `subscribe` returns without polling. `Subscription.NoPollingAfterRaise` proves this. One such exception is the `UnicodeEncodeError` of the content fingerprint when the cached content has no GBK form (`Subscription.UnencodableContentRaises`).
- **Empty server list.** `get_unit_address` returns `None` when the fetched list is empty. With this parser a successful fetch is never empty, so that branch is unreachable. `ServerList.FetchServerList` states this, and `ServerList.GetUnitAddress` never yields `None`.
- **Imported names.** `app.py` imports `check_data_id` and `hmacsha1_encrypt`, but `utils.py` defines `check_dataId` and `HmacSHA1Encrypt`. The model treats each pair as one function (`Utils.CheckDataId`, `Crypto.hmacSha1`).
- **SSL flag.** No caller passes `ssl=True` to `get_request_url`, so every request the client sends uses `http` and port 8080.

## Model

| member | source | states |
|---|---|---|
| Utils.CheckParamIsValid | acmclient/utils.py:9-17 | the greedy match of `^[\w\.\-\:]+$` accepts exactly the non-empty strings of name characters, optionally followed by one trailing newline (Python's `$`) |
| Utils.CheckDataId | acmclient/utils.py:19-25 | `check_dataId` accepts exactly the identifiers the pattern describes |
| Utils.CheckGroup | acmclient/utils.py:27-33 | `check_group` accepts exactly the identifiers the pattern describes |
| Utils.ForeignCharRejected | acmclient/utils.py:9-17 | any character outside `[\w.\-:]` makes the check fail, except a newline in the last position |
| Utils.IdentifierCharacters | acmclient/utils.py:9-17 | a valid identifier contains neither the word nor the line separator, nor `+`, `/` or a space |
| Utils.Md5String | acmclient/utils.py:35-45 | `""` for an absent or empty value; otherwise it raises exactly when the GBK encoding fails, and else yields a lower-case hex string twice the digest length that decodes back to the MD5 digest of the GBK bytes |
| Text.Split | acmclient/app.py:56 | `str.split` gives at least one piece, no piece contains the separator, and joining the pieces restores the text |
| Text.SplitJoin | acmclient/app.py:56 | splitting undoes joining when no piece contains the separator |
| Text.Decimal | acmclient/app.py:222-225 | `str(ts)` is a non-empty digit string without a leading zero whose value is `ts` |
| Text.HexRoundTrip | acmclient/utils.py:45 | a hex digest determines the bytes it encodes |
| ServerList.DiscoveryUrl | acmclient/app.py:60-64 | the default unit uses `http://{endpoint}:8080/diamond-server/diamond`; every other unit uses that address followed by `-unit-{unit}?nofix=1`, so only the default unit gets exactly the default address |
| ServerList.DiscoveryUrlInjective | acmclient/app.py:60-64 | different units are discovered at different addresses |
| ServerList.Choice | acmclient/app.py:50 | `random.choice` returns a member of the list |
| ServerList.ChoiceCovers | acmclient/app.py:50 | every member of the list can be chosen |
| ServerList.RemoveFirst | acmclient/app.py:57 | `list.remove` fails exactly when the item is absent; otherwise it drops one copy, with none before it |
| ServerList.BlankPieceIffBlankLine | acmclient/app.py:56-57 | the split has an empty piece exactly when the body starts or ends with a newline or has two newlines in a row |
| ServerList.ParseServerList | acmclient/app.py:54-58 | an empty body is an error; otherwise parsing succeeds exactly when the body has a blank line; the hosts are the split with only the first `""` removed, the list is non-empty and no host holds a newline |
| ServerList.FetchServerList | acmclient/app.py:52-58 | a transport failure propagates; a reply is parsed; a successful fetch is never empty |
| ServerList.LookupOrFetch | acmclient/app.py:34-50 | a hit leaves the cache alone and returns a cached host whatever the fetch; on a miss a failed fetch leaves the cache and propagates, an empty fetch returns `None`, and a non-empty one is stored under the unit only and a member of it is returned |
| ServerList.HitIgnoresFetch | acmclient/app.py:39-50 | on a hit the outcome does not depend on the fetch, so none is made |
| ServerList.GetUnitAddress | acmclient/app.py:34-50 | on a hit the cache stays and a cached host is returned; on a miss the discovery reply decides: a failure propagates with the cache unchanged, a list is stored under the unit and one of its hosts returned; other units are never touched |
| ServerList.GetCurrentServerIp | acmclient/app.py:22-29 | a truthy current address is returned with no lookup; otherwise the outcome is that of looking up the default unit |
| AcmClient.NewClient | acmclient/app.py:75-95 | construction succeeds exactly when endpoint, namespace, access key and secret key are non-empty; the first empty one is reported; a new client has nothing cached and both flags clear |
| AcmClient.SignText | acmclient/app.py:211 | the signed text is `namespace + "+" + group + "+" + str(ts)`, and its three parts read back when the names hold no `+` |
| AcmClient.SignTextSeparatesTimes | acmclient/app.py:211 | different time stamps give different signed texts |
| AcmClient.SpasSignature | acmclient/app.py:204-212 | the HMAC-SHA1, under the secret key, of `namespace + "+" + group + "+" + str(millis)` |
| AcmClient.SignatureDeterministic | acmclient/app.py:204-212 | the signature depends only on namespace, secret key, group and time stamp |
| AcmClient.MergeHeaders | acmclient/app.py:228-229 | `dict.update`: extra headers win and all other base headers are kept |
| AcmClient.SignedHeaders | acmclient/app.py:222-230 | exactly the three base headers plus the extras; unless overridden, `timeStamp` reads back as the signed time stamp and `Spas-Signature` is the HMAC of that time stamp's sign text |
| AcmClient.ResolveServerIp | acmclient/app.py:220-221 | a memoised truthy address is kept with nothing else changed; otherwise the default unit's lookup supplies the new cache and address on success, and a failure changes nothing |
| AcmClient.RequestHeader | acmclient/app.py:214-230 | with a memoised address it cannot fail, changes nothing and yields the signed headers; otherwise the client and the success are those of resolving the address, and the headers are signed by the resolved client |
| AcmClient.RequestUrl | acmclient/app.py:193-202 | the address ends with the requested path and names the `https` scheme exactly when SSL is asked for |
| AcmClient.RequestUrlDetermines | acmclient/app.py:193-202 | for one path, the URL fixes the scheme and the printed address |
| AcmClient.ConfigGet | acmclient/app.py:109-117 | a plain-http GET of the config path whose query is exactly the namespace, data id and group, carrying the three signed headers with the time stamp reading back as `millis` |
| AcmClient.GetConfig | acmclient/app.py:97-122 | an invalid data id or group changes nothing; otherwise the target is recorded and the address and cache are those `_get_request_header` resolves, whose failure is raised as is; with a memoised address a delivered reply is returned and cached and a failed one raises; an error is always an invalid name, a failed discovery or a failed GET; a failure keeps the content |
| AcmClient.ProbeData | acmclient/app.py:181-191 | it raises exactly when the fingerprint does; otherwise a single `Probe-Modify-Request` field ending in the line separator whose record reads back as data id, group, fingerprint and namespace; with nothing cached it cannot raise and the fingerprint is `""` |
| AcmClient.ProbePost | acmclient/app.py:146-150 | building the probe POST fails, with `UnicodeEncodeError`, exactly when the fingerprint raises |
| AcmClient.ProbePostShape | acmclient/app.py:146-150 | a built probe is a plain-http POST of the config path with the probe form, a 40-second timeout, and the signed headers plus `longPullingTimeout: 30000`, time-stamped at `millis` |
| Subscription.Unsubscribe | acmclient/app.py:157-162 | only the subscription flag changes, and it is cleared |
| Subscription.Refetch | acmclient/app.py:154-155 | the re-fetch keeps target and flags; a success caches the body delivered to its config GET; with a memoised address and a valid target a delivered body is cached and a failed GET raises |
| Subscription.SendProbe | acmclient/app.py:147-155 | from the signing client: a fingerprint failure or a failed POST raises, an empty answer changes nothing, and a non-empty answer caches the re-fetched body or raises when the re-fetch fails; target and flags survive |
| Subscription.CheckServerConfigInfo | acmclient/app.py:141-155 | a failed address resolution raises with nothing changed; otherwise the outcome is that of sending the probe from the resolved client; target and flags survive; a "no change" probe keeps the content; with a memoised address, a fingerprint failure or a failed POST raises, an empty answer changes nothing, and a non-empty answer caches the re-fetched body or raises when the re-fetch fails |
| Subscription.Poll | acmclient/app.py:172-179 | a normal exit clears both flags; an exception or running out of rounds keeps the polling flag; target and memoised address survive |
| Subscription.ChangedRoundUpdatesContent | acmclient/app.py:154-155 | a round whose probe answers non-empty caches the re-fetched body, then the loop keeps polling, or returns with both flags clear after an unsubscribe |
| Subscription.UnencodableContentRaises | acmclient/utils.py:42-44 | cached content without a GBK form makes the next probe raise `UnicodeEncodeError`, ending the loop |
| Subscription.StartLongPulling | acmclient/app.py:164-179 | re-entry while polling returns with no effect; a normal exit clears the polling flag; an exception leaves it set |
| Subscription.RunLongPulling | acmclient/app.py:164-179 | the guarded while loop computes the same session as the recursive definition |
| Subscription.Subscribe | acmclient/app.py:124-139 | invalid names change nothing; otherwise the target is recorded and `_is_close` set, and the loop runs with the polling flag set, unless a loop is already running, in which case it returns at once; an exception leaves the polling flag set |
| Subscription.SubscribeWhilePolling | acmclient/app.py:169-170 | a subscribe during polling only records the target and the subscription |
| Subscription.NoPollingAfterRaise | acmclient/app.py:172-179 | after an exception escaped the loop, every later subscribe returns without polling |
| Subscription.UnsubscribeEndsLoop | acmclient/app.py:173-179 | after an unsubscribe the next loop test exits and clears the polling flag |
| Subscription.QuietRoundsKeepContent | acmclient/app.py:154-155 | while every probe answers empty, the cached content does not change |
| Subscription.UninterruptedLoopKeepsPolling | acmclient/app.py:173-175 | with a memoised address, empty probe answers and no unsubscribe, the loop is still running after every round |
| Scenarios.DefaultDiscoveryUrlExample | tests/test_server_list_manager.py:6-7 | the default discovery address contains `8080/diamond-server/diamond` |
| Scenarios.ParseTwoHosts | acmclient/app.py:54-58 | `"1.2.3.4\n5.6.7.8\n"` parses to the two hosts |
| Scenarios.ParseRefusals | acmclient/app.py:54-57 | `""` and `"1.2.3.4"` are refused |
| Scenarios.ParseKeepsLaterBlank | acmclient/app.py:56-57 | only the first blank entry is removed |
| Scenarios.ValidationExamples | acmclient/utils.py:9-33 | sample names that pass and fail, including the trailing-newline case |
| Scenarios.FetchScenario | acmclient/app.py:75-122 | a newly constructed client resolves `10.0.0.1`, fetches `foo=bar`, caches it and returns it |
| Scenarios.QuietScenario | acmclient/app.py:141-177 | a "no change" probe keeps `foo=bar` and the loop keeps polling |
| Scenarios.ChangeScenario | acmclient/app.py:141-179 | a "changed" probe re-fetches `foo=baz`, and an unsubscribe in that round ends the loop with both flags clear |

## Left out

- HTTP transport (`requests.get`, `requests.post`): a reply is an input. Status codes, the 40-second timeout's effect, `verify=False` and the encoding of `params` into the URL are not modelled. The request records the timeout and the parameters as data.
- `random.choice`: it is modelled as `hosts[pick % |hosts|]` with `pick` supplied by the caller. Uniformity is not modelled.
- `time.time()`: the millisecond time stamp is an input (a `nat`). `int(round(...))` and dates before 1970 are not modelled.
- MD5, HMAC-SHA1, base64 and the GBK/UTF-8 encodings: these are foreign library code, so `Crypto` supplies them as arbitrary pure functions. Collision resistance is not modelled. The GBK encoder is partial (`None` stands for `UnicodeEncodeError`), but which characters GBK lacks is not modelled.
- The UTF-8 encoding inside `HmacSHA1Encrypt` is taken as total. Python raises there only for lone surrogates, and a Dafny `char` is a Unicode scalar value, so such strings are outside the model.
- Utils.CheckParamIsValid: `\w` is taken as ASCII `[A-Za-z0-9_]`. Python 3's Unicode word characters beyond ASCII are not modelled, because that needs the Unicode character database.
- The `acmclient/const` module is not part of this model. The separators use the long-poll wire values U+0002 and U+0001. The current-unit name is a stand-in, and no proof depends on its value.
- Sharing of the class-level `_server_list_cache` dict between instances is not modelled. Each client owns its cache, and a new client starts with an empty one. The current IP and the content become per-instance on first write, as the model has them.
- Concurrency: another thread can only affect the loop through the per-round `unsubscribed` flag, applied at the next loop test. Interleavings such as a concurrent `subscribe` or `getconfig` are not modelled.
- Python's `-O` flag, which would skip the `assert` checks, is not modelled.
- `get_current_unit` is an empty stub and is not modelled. The `**kwargs` of `getconfig` and `subscribe` are ignored by the source and are not modelled.
- AcmClient.RequestUrl: the contract names the scheme and the path tail but not the port digits. The ports 443 and 8080 are written in the definition, and `AcmClient.RequestUrlDetermines` shows that the host text can be read back from the address.
- Subscription.Poll: the loop is observed over a finite number of rounds. An endless subscription appears as the `Polling` status, not as non-termination.

=== FILE: acm_client.dfy ===
/** `ACMClient` of `acmclient/app.py`: construction, request signing, headers,
    request URLs, the long-poll probe payload and `getconfig`.

    The client's attributes (its own and the ones Python keeps on the class) are
    the fields of one immutable `Client` record; every operation maps a client to
    a new client and a result. An operation that raises still returns the client
    as it stood at the moment of the exception, so partial effects are kept.
 */
module AcmClient {
  import opened Results
  import opened Text
  import opened Constants
  import opened Utils
  import opened Http
  import opened ServerList

  datatype Client = Client(
    endpoint: string,
    namespace: string,
    accessKey: string,
    secretKey: string,
    /** The current target, `data_id` and `group`. */
    dataId: string,
    group: string,
    serverListCache: Cache,
    currentServerIp: Option<string>,
    /** The body of the last successful `getconfig`, or `None`. */
    configContent: Option<string>,
    /** `_is_close`: despite its name, true while the client is subscribed. */
    isClose: bool,
    /** `_is_long_pulling`: true while the long-poll loop runs, and after it raised. */
    isLongPulling: bool)

  /** What the outside world supplies to one signed request: the network, the
      clock reading in milliseconds, and the draw of `random.choice`. */
  datatype Exchange = Exchange(net: Network, millis: nat, pick: nat)

  /** The client after an operation, and what the operation returned or raised. */
  datatype Step<T> = Step(client: Client, result: Result<T>)

  /** The four options the constructor insists on are non-empty. */
  predicate WellFormed(c: Client) {
    c.endpoint != "" && c.namespace != "" && c.accessKey != "" && c.secretKey != ""
  }

  /** `b` has the same endpoint, credentials and target as `a`. */
  predicate SameTarget(a: Client, b: Client) {
    && b.endpoint == a.endpoint && b.namespace == a.namespace
    && b.accessKey == a.accessKey && b.secretKey == a.secretKey
    && b.dataId == a.dataId && b.group == a.group
  }

  /** A client nobody has used yet: nothing cached, not subscribed, not polling. */
  predicate Pristine(c: Client) {
    c.serverListCache == map[] && c.currentServerIp == None && c.configContent == None
    && !c.isClose && !c.isLongPulling
  }

  /** `ACMClient.__init__`: the four options are checked in order and the first
      empty one is reported. */
  function NewClient(endpoint: string, namespace: string, accessKey: string, secretKey: string,
                     dataId: string, group: string): (r: Result<Client>)
    ensures r.Ok? <==> endpoint != "" && namespace != "" && accessKey != "" && secretKey != ""
    ensures endpoint == "" ==> r == Err(MissingOption("endpoint"))
    ensures endpoint != "" && namespace == "" ==> r == Err(MissingOption("namespace"))
    ensures endpoint != "" && namespace != "" && accessKey == "" ==> r == Err(MissingOption("accessKey"))
    ensures endpoint != "" && namespace != "" && accessKey != "" && secretKey == "" ==>
      r == Err(MissingOption("secretKey"))
    ensures r.Ok? ==> WellFormed(r.value) && Pristine(r.value)
    ensures r.Ok? ==>
      && r.value.endpoint == endpoint && r.value.namespace == namespace
      && r.value.accessKey == accessKey && r.value.secretKey == secretKey
      && r.value.dataId == dataId && r.value.group == group
  {
    if endpoint == "" then Err(MissingOption("endpoint"))
    else if namespace == "" then Err(MissingOption("namespace"))
    else if accessKey == "" then Err(MissingOption("accessKey"))
    else if secretKey == "" then Err(MissingOption("secretKey"))
    else Ok(Client(endpoint, namespace, accessKey, secretKey, dataId, group, map[], None, None, false, false))
  }

  /** The text `get_spas_signature` signs: `"+".join([namespace, group, str(millis)])`.
      When neither name contains `+`, the three parts can be read back from it. */
  function SignText(namespace: string, group: string, millis: nat): (t: string)
    ensures t == namespace + "+" + group + "+" + Decimal(millis)
    ensures '+' !in namespace && '+' !in group ==> Split(t, '+') == [namespace, group, Decimal(millis)]
  {
    var parts := [namespace, group, Decimal(millis)];
    assert parts[1..] == [group, Decimal(millis)] && parts[1..][1..] == [Decimal(millis)];
    assert Join(parts[1..], '+') == group + "+" + Decimal(millis);
    assert Join(parts, '+') == namespace + "+" + (group + "+" + Decimal(millis));
    assert '+' !in Decimal(millis);
    assert '+' !in namespace && '+' !in group ==> Split(Join(parts, '+'), '+') == parts by {
      if '+' !in namespace && '+' !in group {
        SplitJoin(parts, '+');
      }
    }
    Join(parts, '+')
  }

  /** Two signing requests that differ in the time stamp sign different texts. */
  lemma SignTextSeparatesTimes(namespace: string, group: string, m1: nat, m2: nat)
    requires '+' !in namespace && '+' !in group
    requires SignText(namespace, group, m1) == SignText(namespace, group, m2)
    ensures m1 == m2
  {
    assert Split(SignText(namespace, group, m1), '+')[2] == Decimal(m1);
    DecimalInjective(m1, m2);
  }

  /** `get_spas_signature(group, millis)`: the HMAC of the sign text under the secret key. */
  function SpasSignature(c: Client, group: string, millis: nat, crypto: Crypto): (sig: string)
    ensures sig == crypto.hmacSha1(c.namespace + "+" + group + "+" + Decimal(millis), c.secretKey)
  {
    crypto.hmacSha1(SignText(c.namespace, group, millis), c.secretKey)
  }

  /** The signature depends only on the namespace, the secret key, the group and
      the time stamp: clients agreeing on those sign alike. */
  lemma SignatureDeterministic(c1: Client, c2: Client, group: string, millis: nat, crypto: Crypto)
    requires c1.namespace == c2.namespace && c1.secretKey == c2.secretKey
    ensures SpasSignature(c1, group, millis, crypto) == SpasSignature(c2, group, millis, crypto)
  {
  }

  /** `dict.update`: every extra entry wins, every other base entry stays. */
  function MergeHeaders(base: Headers, extra: Headers): (r: Headers)
    ensures r.Keys == base.Keys + extra.Keys
    ensures forall k :: k in extra ==> r[k] == extra[k]
    ensures forall k :: k in base && k !in extra ==> r[k] == base[k]
  {
    base + extra
  }

  /** The headers `_get_request_header(**extra)` builds once the server address is
      known: access key, time stamp and the signature of that same time stamp,
      overridden by the extra keyword headers. */
  function SignedHeaders(c: Client, millis: nat, extra: Headers, crypto: Crypto): (h: Headers)
    ensures h.Keys == {AccessKeyHeader, TimeStampHeader, SignatureHeader} + extra.Keys
    ensures forall k :: k in extra ==> h[k] == extra[k]
    ensures AccessKeyHeader !in extra ==> h[AccessKeyHeader] == c.accessKey
    ensures TimeStampHeader !in extra ==>
      IsDecimal(h[TimeStampHeader]) && DecimalValue(h[TimeStampHeader]) == millis
    ensures SignatureHeader !in extra ==>
      h[SignatureHeader] == crypto.hmacSha1(SignText(c.namespace, c.group, millis), c.secretKey)
  {
    var base := map[AccessKeyHeader := c.accessKey,
                    TimeStampHeader := Decimal(millis),
                    SignatureHeader := SpasSignature(c, c.group, millis, crypto)];
    MergeHeaders(base, extra)
  }

  /** The prologue of `_get_request_header`: resolve the current server address
      unless a truthy one is already memoised. Only the discovery state changes. */
  function ResolveServerIp(c: Client, ex: Exchange): (r: Step<()>)
    ensures Truthy(c.currentServerIp) ==> r == Step(c, Ok(()))
    ensures r.client == c.(serverListCache := r.client.serverListCache, currentServerIp := r.client.currentServerIp)
    ensures r.result.Err? ==> r.client == c
    ensures r.result.Ok? ==> r.client.currentServerIp.Some?
    ensures r.result.Ok? && !Truthy(c.currentServerIp) ==>
      CacheHit(r.client.serverListCache, CurrentUnit)
      && r.client.currentServerIp.value in r.client.serverListCache[CurrentUnit]
    ensures !Truthy(c.currentServerIp) ==>
      var found := GetUnitAddress(c.endpoint, c.serverListCache, CurrentUnit, ex.net, ex.pick);
      && r.result.Ok? == found.address.Ok?
      && r.client == if found.address.Ok? then c.(serverListCache := found.cache, currentServerIp := found.address.value)
                     else c
  {
    var found := GetCurrentServerIp(c.endpoint, c.serverListCache, c.currentServerIp, ex.net, ex.pick);
    match found.address
    case Err(e) => Step(c, Err(e))
    case Ok(ip) => Step(c.(serverListCache := found.cache, currentServerIp := ip), Ok(()))
  }

  /** `_get_request_header(**extra)`: resolve the address, then sign with the
      client's namespace and group at the exchange's time stamp. */
  function RequestHeader(c: Client, ex: Exchange, extra: Headers, crypto: Crypto): (r: Step<Headers>)
    ensures Truthy(c.currentServerIp) ==> r == Step(c, Ok(SignedHeaders(c, ex.millis, extra, crypto)))
    ensures r.client == c.(serverListCache := r.client.serverListCache, currentServerIp := r.client.currentServerIp)
    ensures r.result.Err? ==> r.client == c
    ensures r.result.Ok? ==> r.result.value == SignedHeaders(c, ex.millis, extra, crypto)
    ensures r.client == ResolveServerIp(c, ex).client && r.result.Ok? == ResolveServerIp(c, ex).result.Ok?
  {
    var resolved := ResolveServerIp(c, ex);
    match resolved.result
    case Err(e) => Step(resolved.client, Err(e))
    case Ok(_) => Step(resolved.client, Ok(SignedHeaders(resolved.client, ex.millis, extra, crypto)))
  }

  /** How an f-string prints `_current_server_ip`: `None` prints as `None`. */
  function IpText(ip: Option<string>): string {
    match ip
    case None => "None"
    case Some(s) => s
  }

  /** `get_request_url(path, ssl)`: port 443 over https, otherwise port 8080 over
      http. The scheme can be read off the fifth character and the path is the tail. */
  function RequestUrl(ip: Option<string>, path: string, ssl: bool): (url: string)
    ensures |url| > |path| + 4 && url[|url| - |path|..] == path
    ensures url[4] == 's' <==> ssl
  {
    if ssl then "https://" + IpText(ip) + ":443/diamond-server" + path
    else "http://" + IpText(ip) + ":8080/diamond-server" + path
  }

  /** The parts around a middle piece fix that piece. */
  lemma SameFrame(pre: string, a: string, b: string, mid: string, post: string)
    requires pre + a + mid + post == pre + b + mid + post
    ensures a == b
  {
    var whole := pre + a + mid + post;
    assert |a| == |b|;
    assert a == whole[|pre|..|pre| + |a|];
    assert b == (pre + b + mid + post)[|pre|..|pre| + |b|];
  }

  /** For one path, the address fixes both the scheme and the host it names. */
  lemma RequestUrlDetermines(ip1: Option<string>, ip2: Option<string>, path: string, ssl1: bool, ssl2: bool)
    requires RequestUrl(ip1, path, ssl1) == RequestUrl(ip2, path, ssl2)
    ensures ssl1 == ssl2 && IpText(ip1) == IpText(ip2)
  {
    if ssl1 {
      SameFrame("https://", IpText(ip1), IpText(ip2), ":443/diamond-server", path);
    } else {
      SameFrame("http://", IpText(ip1), IpText(ip2), ":8080/diamond-server", path);
    }
  }

  /** The query of the configuration GET. */
  function ConfigParams(c: Client): map<string, string> {
    map["tenant" := c.namespace, "dataId" := c.dataId, "group" := c.group]
  }

  /** The request `getconfig` sends once the client holds its target and address:
      a plain-http GET of the config path, signed at `millis`, whose query names
      the namespace, the data id and the group. */
  function ConfigGet(c: Client, millis: nat, crypto: Crypto): (q: Request)
    ensures q.Get?
    ensures q.params.Keys == {"tenant", "dataId", "group"}
    ensures q.params["tenant"] == c.namespace && q.params["dataId"] == c.dataId && q.params["group"] == c.group
    ensures |q.url| > |ConfigSuffix| + 4 && q.url[4] != 's' && q.url[|q.url| - |ConfigSuffix|..] == ConfigSuffix
    ensures q.headers.Keys == {AccessKeyHeader, TimeStampHeader, SignatureHeader}
    ensures IsDecimal(q.headers[TimeStampHeader]) && DecimalValue(q.headers[TimeStampHeader]) == millis
  {
    Get(RequestUrl(c.currentServerIp, ConfigSuffix, false), SignedHeaders(c, millis, map[], crypto), ConfigParams(c))
  }

  /** `getconfig(data_id, group)`: validate both names (nothing changes if either
      fails), record the target, fetch, and keep the body as the cached content. */
  function GetConfig(c: Client, dataId: string, group: string, ex: Exchange, crypto: Crypto): (r: Step<string>)
    ensures !IsIdentifier(dataId) ==> r == Step(c, Err(InvalidDataId(dataId)))
    ensures IsIdentifier(dataId) && !IsIdentifier(group) ==> r == Step(c, Err(InvalidGroup(group)))
    ensures IsIdentifier(dataId) && IsIdentifier(group) ==>
      r.client.dataId == dataId && r.client.group == group
    ensures r.client.endpoint == c.endpoint && r.client.namespace == c.namespace
         && r.client.accessKey == c.accessKey && r.client.secretKey == c.secretKey
    ensures r.client.isClose == c.isClose && r.client.isLongPulling == c.isLongPulling
    ensures r.result.Ok? ==> r.client.configContent == Some(r.result.value)
    ensures r.result.Ok? ==> ex.net(ConfigGet(r.client, ex.millis, crypto)) == Delivered(r.result.value)
    ensures r.result.Err? ==> r.client.configContent == c.configContent
    ensures Truthy(c.currentServerIp) ==>
      r.client.currentServerIp == c.currentServerIp && r.client.serverListCache == c.serverListCache
    ensures IsIdentifier(dataId) && IsIdentifier(group) && Truthy(c.currentServerIp) ==>
      var sent := c.(dataId := dataId, group := group);
      var reply := ex.net(ConfigGet(sent, ex.millis, crypto));
      r == if reply.Delivered? then Step(sent.(configContent := Some(reply.text)), Ok(reply.text))
           else Step(sent, Err(Transport))
    ensures r.result.Err? ==>
      || !IsIdentifier(dataId) || !IsIdentifier(group)
      || ResolveServerIp(c.(dataId := dataId, group := group), ex).result.Err?
      || ex.net(ConfigGet(r.client, ex.millis, crypto)) == Failed
    ensures IsIdentifier(dataId) && IsIdentifier(group) ==>
      var res := ResolveServerIp(c.(dataId := dataId, group := group), ex);
      && r.client.serverListCache == res.client.serverListCache
      && r.client.currentServerIp == res.client.currentServerIp
      && (res.result.Err? ==> r == Step(res.client, Err(res.result.error)))
  {
    if !CheckDataId(dataId) then Step(c, Err(InvalidDataId(dataId)))
    else if !CheckGroup(group) then Step(c, Err(InvalidGroup(group)))
    else
      var targeted := c.(dataId := dataId, group := group);
      var h := RequestHeader(targeted, ex, map[], crypto);
      if h.result.Err? then Step(h.client, Err(h.result.error))
      else
        var sent := h.client;
        match ex.net(ConfigGet(sent, ex.millis, crypto))
        case Failed => Step(sent, Err(Transport))
        case Delivered(text) => Step(sent.(configContent := Some(text)), Ok(text))
  }

  /** `get_subscribe_post_data(data_id, group)`: the single-field probe form,
      `WORD_SEPARATOR.join([data_id, group, md5, namespace]) + LINE_SEPARATOR`.
      It raises exactly when the fingerprint does. For valid names and a namespace
      free of the separator, the record reads back as its four fields, the
      fingerprint being `""` when nothing is cached. */
  function ProbeData(dataId: string, group: string, c: Client, crypto: Crypto): (r: Result<map<string, string>>)
    ensures r.Err? <==> Md5String(c.configContent, crypto).Err?
    ensures r.Err? ==> r == Err(EncodeError)
    ensures r.Ok? ==> r.value.Keys == {ProbeField}
    ensures r.Ok? ==> |r.value[ProbeField]| > 0 && r.value[ProbeField][|r.value[ProbeField]| - 1] == LineSeparator
    ensures r.Ok? && IsIdentifier(dataId) && IsIdentifier(group) && WordSeparator !in c.namespace ==>
      Split(r.value[ProbeField][..|r.value[ProbeField]| - 1], WordSeparator)
        == [dataId, group, Md5String(c.configContent, crypto).value, c.namespace]
    ensures !Truthy(c.configContent) ==> r.Ok? && Md5String(c.configContent, crypto) == Ok("")
  {
    match Md5String(c.configContent, crypto)
    case Err(e) => Err(e)
    case Ok(md5) =>
      var record := Join([dataId, group, md5, c.namespace], WordSeparator);
      var text := record + [LineSeparator];
      assert text[..|text| - 1] == record;
      assert IsIdentifier(dataId) && IsIdentifier(group) && WordSeparator !in c.namespace ==>
        Split(record, WordSeparator) == [dataId, group, md5, c.namespace] by {
      if IsIdentifier(dataId) && IsIdentifier(group) && WordSeparator !in c.namespace {
        IdentifierCharacters(dataId, WordSeparator);
        IdentifierCharacters(group, WordSeparator);
        SplitJoin([dataId, group, md5, c.namespace], WordSeparator);
      }
      }
      Ok(map[ProbeField := text])
  }

  /** The long-poll POST `_check_server_config_info` sends. */
  function ProbePost(c: Client, millis: nat, crypto: Crypto): (r: Result<Request>)
    ensures r.Err? <==> Md5String(c.configContent, crypto).Err?
    ensures r.Err? ==> r == Err(EncodeError)
  {
    match ProbeData(c.dataId, c.group, c, crypto)
    case Err(e) => Err(e)
    case Ok(form) =>
      Ok(Post(RequestUrl(c.currentServerIp, ConfigSuffix, false),
              SignedHeaders(c, millis, map[LongPullingTimeoutHeader := LongPullingTimeoutMillis], crypto),
              form,
              ProbeTimeoutSeconds))
  }
  /** The shape of the probe POST: the probe form, a 40-second client timeout, the
      signed headers plus the long-poll timeout, sent over plain http to the config
      path. */
  lemma ProbePostShape(c: Client, millis: nat, crypto: Crypto)
    requires ProbePost(c, millis, crypto).Ok?
    ensures var q := ProbePost(c, millis, crypto).value;
      && q.Post? && q.timeoutSeconds == ProbeTimeoutSeconds
      && q.data == ProbeData(c.dataId, c.group, c, crypto).value
      && q.headers.Keys == {AccessKeyHeader, TimeStampHeader, SignatureHeader, LongPullingTimeoutHeader}
      && q.headers[LongPullingTimeoutHeader] == LongPullingTimeoutMillis
      && IsDecimal(q.headers[TimeStampHeader]) && DecimalValue(q.headers[TimeStampHeader]) == millis
      && |q.url| > |ConfigSuffix| + 4 && q.url[4] != 's'
      && q.url[|q.url| - |ConfigSuffix|..] == ConfigSuffix
  {
  }

}

=== FILE: constants.dfy ===
/** The constants the client reads from its `const` module and from the top of
    `acmclient/app.py`.

    The `const` module itself is not part of this model. The two separators take
    the values of the long-poll wire format (field separator U+0002, record
    terminator U+0001); the proofs use only that they are distinct from each other
    and from every identifier or hex-digit character. `CurrentUnit` is a stand-in
    name for the default unit; no proof depends on its value.
 */
module Constants {

  const CurrentUnit: string := "current_unit"
  const WordSeparator: char := '\U{2}'
  const LineSeparator: char := '\U{1}'

  /** `GET_CONFIG_SUFFIX = SUBSCRIBE_SUBFFIX = '/config.co'`. */
  const ConfigSuffix: string := "/config.co"
  const DefaultGroup: string := "DEFAULT_GROUP"

  /** The form field that carries the long-poll probe. */
  const ProbeField: string := "Probe-Modify-Request"
  /** Extra header of the probe: how long the server may hold the request (ms). */
  const LongPullingTimeoutHeader: string := "longPullingTimeout"
  const LongPullingTimeoutMillis: string := "30000"
  /** Client-side transport timeout of the probe POST, in seconds. */
  const ProbeTimeoutSeconds: nat := 40

  const AccessKeyHeader: string := "Spas-AccessKey"
  const TimeStampHeader: string := "timeStamp"
  const SignatureHeader: string := "Spas-Signature"
}

=== FILE: http.dfy ===
/** The HTTP exchanges the client performs, as data.

    The transport (`requests.get` / `requests.post`) is not modelled; the network
    is a function from the request sent to the reply received, supplied by the
    caller of each operation.
 */
module Http {

  type Headers = map<string, string>

  datatype Request =
    /** `requests.get(url, headers=..., params=...)`. */
    | Get(url: string, headers: Headers, params: map<string, string>)
    /** `requests.post(url, headers=..., data=..., timeout=...)`. */
    | Post(url: string, headers: Headers, data: map<string, string>, timeoutSeconds: nat)

  /** What the client sees: the body text (`res.text`) or a raised exception. */
  datatype Reply = Delivered(text: string) | Failed

  type Network = Request -> Reply
}

=== FILE: results.dfy ===
/** Failure-carrying values shared by the whole model.

    Python signals failure by raising; the model returns the failure as a value
    instead, so every way an operation can fail is visible in its result type.
 */
module Results {

  /** Python's `None` or a value. */
  datatype Option<+T> = None | Some(value: T)

  /** The exceptions the client can raise, one constructor per cause. */
  datatype Error =
    /** `assert` in the constructor: a required option is empty (names the option). */
    | MissingOption(option: string)
    /** `assert check_data_id(data_id)` failed; carries the offending value. */
    | InvalidDataId(dataId: string)
    /** `assert check_group(group)` failed; carries the offending value. */
    | InvalidGroup(group: string)
    /** `ValueError`: the discovery server answered with an empty body. */
    | EmptyHosts
    /** `ValueError` raised by `list.remove('')` when the body has no blank line. */
    | NoBlankHost
    /** Any exception raised by the HTTP library (connection, timeout, ...). */
    | Transport
    /** `UnicodeEncodeError` from `str.encode('gbk')`: the cached content holds a
        character outside GBK. */
    | EncodeError

  /** The outcome of a call that either returns a value or raises. */
  datatype Result<+T> = Ok(value: T) | Err(error: Error)
}

=== FILE: scenarios.dfy ===
/** Worked examples of the protocol on concrete inputs: discovery bodies,
    identifier checks, and a fetch followed by a subscription that sees one
    unchanged and one changed probe. The cryptographic primitives stay arbitrary,
    except that the cached `foo=bar` has a GBK form. */
module Scenarios {
  import opened Results
  import opened Text
  import opened Constants
  import opened Utils
  import opened Http
  import opened ServerList
  import opened AcmClient
  import opened Subscription

  /** The default unit's discovery address contains `8080/diamond-server/diamond`. */
  lemma DefaultDiscoveryUrlExample(endpoint: string)
    ensures var url := DiscoveryUrl(endpoint, CurrentUnit);
      |url| >= 27 && url[|url| - 27..] == "8080/diamond-server/diamond"
  {
  }

  /** A newline-terminated body loses its final empty piece. */
  lemma ParseTwoHosts()
    ensures ParseServerList("1.2.3.4\n5.6.7.8\n") == Ok(["1.2.3.4", "5.6.7.8"])
  {
    var parts := ["1.2.3.4", "5.6.7.8", ""];
    assert Join(parts, '\n') == "1.2.3.4\n5.6.7.8\n" by {
      assert parts[1..] == ["5.6.7.8", ""] && parts[1..][1..] == [""];
    }
    SplitJoin(parts, '\n');
    assert FirstIndex(parts, "") == 2;
    assert parts[..2] + parts[3..] == ["1.2.3.4", "5.6.7.8"];
  }

  /** Empty bodies and bodies without a blank line are refused. */
  lemma ParseRefusals()
    ensures ParseServerList("") == Err(EmptyHosts)
    ensures ParseServerList("1.2.3.4") == Err(NoBlankHost)
  {
    assert !HasBlankLine("1.2.3.4");
  }

  /** Only the first blank piece is removed; a later one stays in the list. */
  lemma ParseKeepsLaterBlank()
    ensures ParseServerList("a\n\nb\n") == Ok(["a", "b", ""])
  {
    var parts := ["a", "", "b", ""];
    assert Join(parts, '\n') == "a\n\nb\n" by {
      assert parts[1..] == ["", "b", ""] && parts[1..][1..] == ["b", ""] && parts[1..][1..][1..] == [""];
    }
    SplitJoin(parts, '\n');
    assert FirstIndex(parts, "") == 1;
    assert parts[..1] + parts[2..] == ["a", "b", ""];
  }

  /** Names made of the allowed characters pass; `/`, a space, the empty string and
      a second trailing newline do not; one trailing newline slips through `$`. */
  lemma ValidationExamples()
    ensures CheckDataId("my.data") && CheckGroup("DEFAULT_GROUP") && CheckDataId("app:cfg-1_v2")
    ensures !CheckDataId("my/data") && !CheckGroup("my group") && !CheckParamIsValid("")
    ensures CheckParamIsValid("abc\n") && !CheckParamIsValid("abc\n\n") && !CheckParamIsValid("\n")
  {
    assert IsName("my.data");
    assert IsName("DEFAULT_GROUP");
    assert IsName("app:cfg-1_v2");
    ForeignCharRejected("my/data", 2);
    ForeignCharRejected("my group", 2);
    assert "abc\n"[..3] == "abc";
    assert IsName("abc");
    ForeignCharRejected("abc\n\n", 3);
  }

  const Endpoint := "example.com"

  /** Discovery answers with one host; the configuration GET answers `foo=bar`. */
  function FirstNet(q: Request): Reply {
    if q == Get(DiscoveryUrl(Endpoint, CurrentUnit), map[], map[]) then Delivered("10.0.0.1\n")
    else if q.Get? then Delivered("foo=bar")
    else Delivered("")
  }

  /** Every request is answered with the given body. */
  function Answer(body: string): Network {
    (q: Request) => Delivered(body)
  }

  function Fresh(): Client {
    Client(Endpoint, "ns1", "ak", "sk", "", DefaultGroup, map[], None, None, false, false)
  }

  /** A one-host body with its trailing newline. */
  lemma ParseOneHost()
    ensures ParseServerList("10.0.0.1\n") == Ok(["10.0.0.1"])
  {
    var parts := ["10.0.0.1", ""];
    assert Join(parts, '\n') == "10.0.0.1\n";
    SplitJoin(parts, '\n');
    assert FirstIndex(parts, "") == 1;
    assert parts[..1] + parts[2..] == ["10.0.0.1"];
  }

  /** Discovery of the default unit yields the single host `10.0.0.1`. */
  lemma FirstNetDiscovery(pick: nat)
    ensures GetUnitAddress(Endpoint, map[], CurrentUnit, FirstNet, pick)
         == Lookup(map[CurrentUnit := ["10.0.0.1"]], Ok(Some("10.0.0.1")))
  {
    ParseOneHost();
    assert FirstNet(Get(DiscoveryUrl(Endpoint, CurrentUnit), map[], map[])) == Delivered("10.0.0.1\n");
    assert FetchServerList(Endpoint, CurrentUnit, FirstNet) == Ok(["10.0.0.1"]);
  }

  lemma FreshIsConstructed()
    ensures NewClient(Endpoint, "ns1", "ak", "sk", "", DefaultGroup) == Ok(Fresh())
  {
  }

  /** The header step of the fetch resolves and memoises `10.0.0.1`. */
  lemma FetchResolves(crypto: Crypto, millis: nat, pick: nat)
    ensures RequestHeader(Fresh().(dataId := "my.data"), Exchange(FirstNet, millis, pick), map[], crypto).client
         == Fetched().(configContent := None)
    ensures RequestHeader(Fresh().(dataId := "my.data"), Exchange(FirstNet, millis, pick), map[], crypto).result.Ok?
  {
    FirstNetDiscovery(pick);
    var targeted := Fresh().(dataId := "my.data");
    assert GetCurrentServerIp(Endpoint, map[], None, FirstNet, pick)
        == Lookup(map[CurrentUnit := ["10.0.0.1"]], Ok(Some("10.0.0.1")));
    assert ResolveServerIp(targeted, Exchange(FirstNet, millis, pick))
        == Step(Fetched().(configContent := None), Ok(()));
  }

  /** The configuration GET is not the discovery GET, so it is answered `foo=bar`. */
  lemma FetchAnswered(c: Client, millis: nat, crypto: Crypto)
    ensures FirstNet(ConfigGet(c, millis, crypto)) == Delivered("foo=bar")
  {
    assert ConfigGet(c, millis, crypto).params != map[] by {
      assert "tenant" in ConfigGet(c, millis, crypto).params;
    }
  }

  /** A newly constructed client resolves `10.0.0.1`, fetches `foo=bar`, caches it
      and returns it. */
  lemma FetchScenario(crypto: Crypto, millis: nat, pick: nat)
    ensures NewClient(Endpoint, "ns1", "ak", "sk", "", DefaultGroup).Ok?
    ensures GetConfig(NewClient(Endpoint, "ns1", "ak", "sk", "", DefaultGroup).value, "my.data", DefaultGroup,
                      Exchange(FirstNet, millis, pick), crypto)
         == Step(Fetched(), Ok("foo=bar"))
  {
    FreshIsConstructed();
    assert CheckDataId("my.data") && CheckGroup(DefaultGroup) by {
      ValidationExamples();
    }
    FetchResolves(crypto, millis, pick);
    FetchAnswered(Fetched().(configContent := None), millis, crypto);
  }

  /** The client after `FetchScenario`. */
  function Fetched(): Client {
    Fresh().(dataId := "my.data", serverListCache := map[CurrentUnit := ["10.0.0.1"]],
             currentServerIp := Some("10.0.0.1"), configContent := Some("foo=bar"))
  }

  /** The fetched client, subscribed and polling. */
  function Subscribed(): Client {
    Fetched().(isClose := true, isLongPulling := true)
  }

  function QuietRound(m1: nat, m2: nat): Round {
    Round(Exchange(Answer(""), m1, 0), Exchange(Answer("unused"), m2, 0), false)
  }

  function ChangedRound(m3: nat, m4: nat): Round {
    Round(Exchange(Answer("my.data"), m3, 0), Exchange(Answer("foo=baz"), m4, 0), true)
  }

  /** A "no change" probe leaves the polling client exactly as it was. */
  lemma QuietIteration(crypto: Crypto, m1: nat, m2: nat)
    requires crypto.gbk("foo=bar").Some?
    ensures CheckServerConfigInfo(Subscribed(), QuietRound(m1, m2).probe, QuietRound(m1, m2).refetch, crypto)
         == Step(Subscribed(), Ok(()))
  {
    assert ProbePost(Subscribed(), m1, crypto).Ok?;
  }

  /** A "changed" probe re-fetches and caches `foo=baz`. */
  lemma ChangedIteration(crypto: Crypto, m3: nat, m4: nat)
    requires crypto.gbk("foo=bar").Some?
    ensures CheckServerConfigInfo(Subscribed(), ChangedRound(m3, m4).probe, ChangedRound(m3, m4).refetch, crypto)
         == Step(Subscribed().(configContent := Some("foo=baz")), Ok(()))
  {
    assert CheckDataId("my.data") && CheckGroup(DefaultGroup) by {
      ValidationExamples();
    }
    assert ProbePost(Subscribed(), m3, crypto).Ok?;
  }

  /** Subscribing runs the loop from the fetched client with both flags set. */
  lemma SubscribeStartsLoop(rounds: seq<Round>, crypto: Crypto)
    ensures Subscribe(Fetched(), "my.data", DefaultGroup, rounds, crypto) == Poll(Subscribed(), rounds, crypto)
  {
    assert CheckDataId("my.data") && CheckGroup(DefaultGroup) by {
      ValidationExamples();
    }
  }

  /** Subscribed, a probe that reports no change keeps the content `foo=bar` and
      the loop keeps polling. */
  lemma QuietScenario(crypto: Crypto, m1: nat, m2: nat)
    requires crypto.gbk("foo=bar").Some?
    ensures Subscribe(Fetched(), "my.data", DefaultGroup, [QuietRound(m1, m2)], crypto)
         == Session(Subscribed(), Polling)
  {
    SubscribeStartsLoop([QuietRound(m1, m2)], crypto);
    QuietIteration(crypto, m1, m2);
    assert [QuietRound(m1, m2)][1..] == [];
  }

  /** After the quiet probe, a second probe reports a change, the re-fetch returns
      `foo=baz`, and an `unsubscribe` during that round ends the loop with both
      flags clear. */
  lemma ChangeScenario(crypto: Crypto, m1: nat, m2: nat, m3: nat, m4: nat)
    requires crypto.gbk("foo=bar").Some?
    ensures Subscribe(Fetched(), "my.data", DefaultGroup, [QuietRound(m1, m2), ChangedRound(m3, m4)], crypto)
         == Session(Fetched().(configContent := Some("foo=baz")), Returned)
  {
    var rounds := [QuietRound(m1, m2), ChangedRound(m3, m4)];
    SubscribeStartsLoop(rounds, crypto);
    QuietIteration(crypto, m1, m2);
    assert rounds[1..] == [ChangedRound(m3, m4)];
    assert Poll(Subscribed(), rounds, crypto) == Poll(Subscribed(), [ChangedRound(m3, m4)], crypto);
    ChangedIteration(crypto, m3, m4);
    var changed := Subscribed().(configContent := Some("foo=baz"));
    assert Poll(Subscribed(), [ChangedRound(m3, m4)], crypto) == Poll(Unsubscribe(changed), [], crypto);
  }
}

=== FILE: server_list.dfy ===
/** `ServerListManager` of `acmclient/app.py`: the discovery URL, parsing the
    discovery body, the per-unit cache and the memoised current server address.

    The manager's state is passed in and returned explicitly: the endpoint, the
    cache from unit to host list, and the current address (`None` or a string).
    `random.choice` is modelled by an index oracle `pick`.
 */
module ServerList {
  import opened Results
  import opened Text
  import opened Constants
  import opened Http

  type Cache = map<string, seq<string>>

  /** Python truthiness of `Optional[str]`: present and non-empty. */
  predicate Truthy(s: Option<string>) {
    s.Some? && s.value != ""
  }

  /** The discovery address of the default unit. */
  function DefaultDiscoveryUrl(endpoint: string): string {
    "http://" + endpoint + ":8080/diamond-server/diamond"
  }

  /** `request_server_list_url`. Any other unit is named in a `-unit-{unit}?nofix=1`
      suffix, so the default unit's address is a proper prefix of theirs. */
  function DiscoveryUrl(endpoint: string, unit: string): (url: string)
    ensures unit == CurrentUnit <==> url == DefaultDiscoveryUrl(endpoint)
    ensures unit != CurrentUnit ==> url == DefaultDiscoveryUrl(endpoint) + "-unit-" + unit + "?nofix=1"
    ensures |DefaultDiscoveryUrl(endpoint)| <= |url|
    ensures url[..|DefaultDiscoveryUrl(endpoint)|] == DefaultDiscoveryUrl(endpoint)
  {
    if unit == CurrentUnit then DefaultDiscoveryUrl(endpoint)
    else
      var url := DefaultDiscoveryUrl(endpoint) + "-unit-" + unit + "?nofix=1";
      assert url[..|DefaultDiscoveryUrl(endpoint)|] == DefaultDiscoveryUrl(endpoint);
      url
  }

  /** Different units are looked up at different addresses. */
  lemma {:induction false} DiscoveryUrlInjective(endpoint: string, u1: string, u2: string)
    requires DiscoveryUrl(endpoint, u1) == DiscoveryUrl(endpoint, u2)
    ensures u1 == u2
  {
    if u1 != CurrentUnit && u2 != CurrentUnit {
      var p := DefaultDiscoveryUrl(endpoint) + "-unit-";
      var url := DiscoveryUrl(endpoint, u1);
      assert url == p + u1 + "?nofix=1";
      assert url == p + u2 + "?nofix=1";
      assert |u1| == |u2|;
      assert u1 == url[|p|..|p| + |u1|];
    }
  }

  /** Python's `random.choice`, with the random draw supplied as `pick`. */
  function Choice(hosts: seq<string>, pick: nat): (h: string)
    requires |hosts| > 0
    ensures h in hosts
  {
    hosts[pick % |hosts|]
  }

  /** Every host of a list can be chosen. */
  lemma ChoiceCovers(hosts: seq<string>, h: string)
    requires h in hosts
    ensures exists pick: nat :: Choice(hosts, pick) == h
  {
    var i :| 0 <= i < |hosts| && hosts[i] == h;
    assert Choice(hosts, i) == h;
  }

  /** The position of the first `x` in `xs`. */
  function FirstIndex<T(==)>(xs: seq<T>, x: T): (i: nat)
    requires x in xs
    ensures i < |xs| && xs[i] == x && x !in xs[..i]
    decreases |xs|
  {
    if xs[0] == x then 0
    else
      var i := 1 + FirstIndex(xs[1..], x);
      assert xs[..i] == [xs[0]] + xs[1..][..i - 1];
      i
  }

  /** Python's `list.remove(x)`: drop the first `x`, or raise when there is none.
      On success, putting `x` back at position `i` restores the list, and no `x`
      comes before `i`. */
  function RemoveFirst<T(==)>(xs: seq<T>, x: T): (r: Option<seq<T>>)
    ensures r.None? <==> x !in xs
    ensures r.Some? ==> |r.value| == |xs| - 1
    ensures r.Some? ==> exists i :: 0 <= i < |xs| && x !in xs[..i] && xs == r.value[..i] + [x] + r.value[i..]
  {
    if x !in xs then None
    else
      var i := FirstIndex(xs, x);
      var rest := xs[..i] + xs[i + 1..];
      assert rest[..i] == xs[..i] && rest[i..] == xs[i + 1..];
      assert xs == xs[..i] + [x] + xs[i + 1..];
      Some(rest)
  }

  /** A body has a blank line exactly when it starts or ends with a newline or has
      two newlines in a row. */
  predicate HasBlankLine(text: string) {
    |text| == 0 || text[0] == '\n' || text[|text| - 1] == '\n'
    || exists i :: 0 <= i < |text| - 1 && text[i] == '\n' && text[i + 1] == '\n'
  }

  /** Dropping a first character that is not a newline keeps the blank lines,
      provided the second character is not a newline either. */
  lemma BlankLineShiftOne(text: string)
    requires |text| >= 2 && text[0] != '\n' && text[1] != '\n'
    ensures HasBlankLine(text) <==> HasBlankLine(text[1..])
  {
    var tail := text[1..];
    if exists i :: 0 <= i < |text| - 1 && text[i] == '\n' && text[i + 1] == '\n' {
      var i :| 0 <= i < |text| - 1 && text[i] == '\n' && text[i + 1] == '\n';
      assert tail[i - 1] == '\n' && tail[i] == '\n';
    }
    if exists j :: 0 <= j < |tail| - 1 && tail[j] == '\n' && tail[j + 1] == '\n' {
      var j :| 0 <= j < |tail| - 1 && tail[j] == '\n' && tail[j + 1] == '\n';
      assert text[j + 1] == '\n' && text[j + 2] == '\n';
    }
  }

  /** A line `c` followed by a newline: the rest has a blank line exactly when the
      whole text has one. */
  lemma BlankLineShiftTwo(text: string)
    requires |text| >= 2 && text[0] != '\n' && text[1] == '\n'
    ensures HasBlankLine(text) <==> HasBlankLine(text[2..])
  {
    var tail := text[2..];
    if |tail| > 0 && tail[0] != '\n' {
      if exists i :: 0 <= i < |text| - 1 && text[i] == '\n' && text[i + 1] == '\n' {
        var i :| 0 <= i < |text| - 1 && text[i] == '\n' && text[i + 1] == '\n';
        assert tail[i - 2] == '\n' && tail[i - 1] == '\n';
      }
      if exists j :: 0 <= j < |tail| - 1 && tail[j] == '\n' && tail[j + 1] == '\n' {
        var j :| 0 <= j < |tail| - 1 && tail[j] == '\n' && tail[j + 1] == '\n';
        assert text[j + 2] == '\n' && text[j + 3] == '\n';
      }
    }
  }

  /** The text-level reading of `"" in text.split('\n')`. */
  lemma {:induction false} BlankPieceIffBlankLine(text: string)
    ensures "" in Split(text, '\n') <==> HasBlankLine(text)
    decreases |text|
  {
    if |text| == 0 || text[0] == '\n' {
      assert Split(text, '\n')[0] == "";
    } else if |text| == 1 {
      assert Split(text, '\n') == [text];
    } else if text[1] != '\n' {
      var tail := text[1..];
      var rest := Split(tail, '\n');
      BlankPieceIffBlankLine(tail);
      BlankLineShiftOne(text);
      assert rest[0] != "" by {
        assert rest[0] == [tail[0]] + Split(tail[1..], '\n')[0];
      }
      assert Split(text, '\n') == [[text[0]] + rest[0]] + rest[1..];
      assert rest == [rest[0]] + rest[1..];
    } else {
      var tail2 := text[2..];
      BlankPieceIffBlankLine(tail2);
      BlankLineShiftTwo(text);
      assert text[1..][1..] == tail2;
      var rest := Split(text[1..], '\n');
      assert rest == [""] + Split(tail2, '\n');
      assert rest[0] == "" && rest[1..] == Split(tail2, '\n');
      assert Split(text, '\n') == [[text[0]] + rest[0]] + rest[1..];
      assert [text[0]] + rest[0] == [text[0]];
    }
  }

  /** The parsing half of `fetch_server_list`: refuse an empty body, split on
      newlines, and remove the first empty piece (raising if there is none). */
  function ParseServerList(text: string): (r: Result<seq<string>>)
    ensures text == "" ==> r == Err(EmptyHosts)
    ensures text != "" ==> (r.Ok? <==> HasBlankLine(text))
    ensures text != "" && !HasBlankLine(text) ==> r == Err(NoBlankHost)
    ensures r.Ok? ==> |r.value| > 0
    ensures r.Ok? ==> forall i :: 0 <= i < |r.value| ==> '\n' !in r.value[i]
    ensures r.Ok? ==> exists k :: 0 <= k <= |r.value| && "" !in r.value[..k]
                               && Split(text, '\n') == r.value[..k] + [""] + r.value[k..]
  {
    if text == "" then Err(EmptyHosts)
    else
      var pieces := Split(text, '\n');
      BlankPieceIffBlankLine(text);
      match RemoveFirst(pieces, "")
      case None => Err(NoBlankHost)
      case Some(hosts) =>
        Ok(hosts)
  }

  /** `fetch_server_list`: GET the discovery address without headers, then parse. */
  function FetchServerList(endpoint: string, unit: string, net: Network): (r: Result<seq<string>>)
    ensures net(Get(DiscoveryUrl(endpoint, unit), map[], map[])).Failed? ==> r == Err(Transport)
    ensures net(Get(DiscoveryUrl(endpoint, unit), map[], map[])).Delivered? ==>
      r == ParseServerList(net(Get(DiscoveryUrl(endpoint, unit), map[], map[])).text)
    ensures r.Ok? ==> |r.value| > 0
  {
    match net(Get(DiscoveryUrl(endpoint, unit), map[], map[]))
    case Failed => Err(Transport)
    case Delivered(text) => ParseServerList(text)
  }

  /** What a cache lookup leaves behind: the cache and the address (or the error). */
  datatype Lookup = Lookup(cache: Cache, address: Result<Option<string>>)

  /** A unit whose cache entry is present and non-empty (Python truthiness). */
  predicate CacheHit(cache: Cache, unit: string) {
    unit in cache && |cache[unit]| > 0
  }

  /** `get_unit_address` with the fetch's outcome given as `fetched`; on a hit the
      fetch is not made, which the result shows by not depending on `fetched`. */
  function LookupOrFetch(cache: Cache, unit: string, fetched: Result<seq<string>>, pick: nat): (r: Lookup)
    ensures CacheHit(cache, unit) ==>
      r.cache == cache && r.address.Ok? && r.address.value.Some? && r.address.value.value in cache[unit]
    ensures !CacheHit(cache, unit) && fetched.Err? ==> r == Lookup(cache, Err(fetched.error))
    ensures !CacheHit(cache, unit) && fetched == Ok([]) ==> r == Lookup(cache, Ok(None))
    ensures !CacheHit(cache, unit) && fetched.Ok? && |fetched.value| > 0 ==>
      && r.cache.Keys == cache.Keys + {unit}
      && r.cache[unit] == fetched.value
      && (forall u :: u in cache && u != unit ==> r.cache[u] == cache[u])
      && r.address.Ok? && r.address.value.Some? && r.address.value.value in fetched.value
  {
    if CacheHit(cache, unit) then Lookup(cache, Ok(Some(Choice(cache[unit], pick))))
    else match fetched
      case Err(e) => Lookup(cache, Err(e))
      case Ok(hosts) =>
        if |hosts| == 0 then Lookup(cache, Ok(None))
        else Lookup(cache[unit := hosts], Ok(Some(Choice(hosts, pick))))
  }

  /** A cache hit makes no use of the network: any two networks give the same lookup. */
  lemma HitIgnoresFetch(cache: Cache, unit: string, f1: Result<seq<string>>, f2: Result<seq<string>>, pick: nat)
    requires CacheHit(cache, unit)
    ensures LookupOrFetch(cache, unit, f1, pick) == LookupOrFetch(cache, unit, f2, pick)
  {
  }

  /** `get_unit_address(unit)`: the cached list, or a fresh discovery on a miss. */
  function GetUnitAddress(endpoint: string, cache: Cache, unit: string, net: Network, pick: nat): (r: Lookup)
    ensures r.address.Ok? ==> r.address.value.Some?
    ensures r.address.Err? ==> r.cache == cache
    ensures r.address.Ok? ==> CacheHit(r.cache, unit) && r.address.value.value in r.cache[unit]
    ensures forall u :: u in cache && u != unit ==> u in r.cache && r.cache[u] == cache[u]
    ensures CacheHit(cache, unit) ==> r.cache == cache
    ensures !CacheHit(cache, unit) ==>
      var f := FetchServerList(endpoint, unit, net);
      && (f.Err? ==> r == Lookup(cache, Err(f.error)))
      && (f.Ok? ==> r.cache == cache[unit := f.value] && r.address.Ok? && r.address.value.Some?
                    && r.address.value.value in f.value)
  {
    LookupOrFetch(cache, unit, FetchServerList(endpoint, unit, net), pick)
  }

  /** `get_current_server_ip`: keep a truthy current address, otherwise resolve the
      default unit. On success the caller stores `address` as the new current address. */
  function GetCurrentServerIp(endpoint: string, cache: Cache, current: Option<string>, net: Network, pick: nat): (r: Lookup)
    ensures Truthy(current) ==> r == Lookup(cache, Ok(current))
    ensures !Truthy(current) && CacheHit(cache, CurrentUnit) ==>
      r.cache == cache && r.address.Ok? && r.address.value.Some? && r.address.value.value in cache[CurrentUnit]
    ensures r.address.Ok? ==> r.address.value.Some?
    ensures r.address.Err? ==> r.cache == cache
    ensures !Truthy(current) ==> r == GetUnitAddress(endpoint, cache, CurrentUnit, net, pick)
  {
    if Truthy(current) then Lookup(cache, Ok(current))
    else GetUnitAddress(endpoint, cache, CurrentUnit, net, pick)
  }
}

=== FILE: subscription.dfy ===
/** The long-poll subscription of `ACMClient`: `subscribe`, `unsubscribe`,
    `_start_long_pulling` and `_check_server_config_info`.

    The loop runs on a finite sequence of rounds, one per iteration. A round
    supplies the probe's exchange, the exchange of the re-fetch a change would
    trigger, and whether another thread called `unsubscribe` while the iteration
    was in flight (its effect is seen at the next loop test). When the rounds run
    out while the client is still subscribed the loop is reported as still polling.
 */
module Subscription {
  import opened Results
  import opened Constants
  import opened Utils
  import opened Http
  import opened ServerList
  import opened AcmClient

  datatype Round = Round(probe: Exchange, refetch: Exchange, unsubscribed: bool)

  /** How the loop ended: it returned, an exception left it, or it is still running
      when the supplied rounds are used up. */
  datatype Status = Returned | Raised(error: Error) | Polling

  datatype Session = Session(client: Client, status: Status)

  /** Every POST of the exchange is answered with an empty body: "no change". */
  ghost predicate QuietProbe(ex: Exchange) {
    forall q: Request :: q.Post? ==> ex.net(q) == Delivered("")
  }

  /** Every POST of the exchange is answered with a non-empty body: "changed". */
  ghost predicate ChangedProbe(ex: Exchange) {
    forall q: Request :: q.Post? ==> ex.net(q).Delivered? && ex.net(q).text != ""
  }

  /** `unsubscribe`: only the subscription flag changes. */
  function Unsubscribe(c: Client): (r: Client)
    ensures !r.isClose
    ensures r.(isClose := c.isClose) == c
  {
    c.(isClose := false)
  }

  /** The re-fetch a changed probe triggers: `getconfig` of the client's own
      target, its body dropped. */
  function Refetch(sent: Client, refetch: Exchange, crypto: Crypto): (r: Step<()>)
    ensures SameTarget(sent, r.client)
    ensures r.client.isClose == sent.isClose && r.client.isLongPulling == sent.isLongPulling
    ensures r.result.Ok? ==>
      && r.client.configContent.Some?
      && refetch.net(ConfigGet(r.client, refetch.millis, crypto)) == Delivered(r.client.configContent.value)
    ensures Truthy(sent.currentServerIp) ==>
      r.client.currentServerIp == sent.currentServerIp && r.client.serverListCache == sent.serverListCache
    ensures IsIdentifier(sent.dataId) && IsIdentifier(sent.group) && Truthy(sent.currentServerIp) ==>
      var again := refetch.net(ConfigGet(sent, refetch.millis, crypto));
      r == if again.Delivered? then Step(sent.(configContent := Some(again.text)), Ok(()))
           else Step(sent, Err(Transport))
  {
    var g := GetConfig(sent, sent.dataId, sent.group, refetch, crypto);
    Step(g.client, if g.result.Ok? then Ok(()) else Err(g.result.error))
  }

  /** The part of `_check_server_config_info` after the headers are built: build
      the probe form (which raises when the cached content has no GBK form), POST
      it from `sent`, and re-fetch the configuration when the answer is non-empty.
      Each outcome of the form, the probe and the re-fetch is given exactly. */
  function SendProbe(sent: Client, probe: Exchange, refetch: Exchange, crypto: Crypto): (r: Step<()>)
    ensures SameTarget(sent, r.client)
    ensures r.client.isClose == sent.isClose && r.client.isLongPulling == sent.isLongPulling
    ensures QuietProbe(probe) ==> r.client.configContent == sent.configContent
    ensures ChangedProbe(probe) && r.result.Ok? ==>
      && r.client.configContent.Some?
      && refetch.net(ConfigGet(r.client, refetch.millis, crypto)) == Delivered(r.client.configContent.value)
    ensures Truthy(sent.currentServerIp) ==>
      r.client.currentServerIp == sent.currentServerIp && r.client.serverListCache == sent.serverListCache
    ensures ProbePost(sent, probe.millis, crypto).Err? ==> r == Step(sent, Err(EncodeError))
    ensures ProbePost(sent, probe.millis, crypto).Ok? ==>
      var reply := probe.net(ProbePost(sent, probe.millis, crypto).value);
      && (reply == Failed ==> r == Step(sent, Err(Transport)))
      && (reply == Delivered("") ==> r == Step(sent, Ok(())))
      && (reply.Delivered? && reply.text != "" && IsIdentifier(sent.dataId) && IsIdentifier(sent.group)
          && Truthy(sent.currentServerIp) ==>
            var again := refetch.net(ConfigGet(sent, refetch.millis, crypto));
            r == if again.Delivered? then Step(sent.(configContent := Some(again.text)), Ok(()))
                 else Step(sent, Err(Transport)))
  {
    match ProbePost(sent, probe.millis, crypto)
    case Err(e) => Step(sent, Err(e))
    case Ok(post) =>
      match probe.net(post)
      case Failed => Step(sent, Err(Transport))
      case Delivered(text) =>
        if text == "" then Step(sent, Ok(()))
        else Refetch(sent, refetch, crypto)
  }

  /** `_check_server_config_info`: sign, build the probe form (which raises when
      the cached content has no GBK form), POST it, and re-fetch the configuration
      when the answer is non-empty. The target, the credentials and both flags
      survive every outcome. With the address memoised, each outcome of the probe
      and of the re-fetch is given exactly. */
  function CheckServerConfigInfo(c: Client, probe: Exchange, refetch: Exchange, crypto: Crypto): (r: Step<()>)
    ensures SameTarget(c, r.client)
    ensures r.client.isClose == c.isClose && r.client.isLongPulling == c.isLongPulling
    ensures QuietProbe(probe) ==> r.client.configContent == c.configContent
    ensures ChangedProbe(probe) && r.result.Ok? ==>
      && r.client.configContent.Some?
      && refetch.net(ConfigGet(r.client, refetch.millis, crypto)) == Delivered(r.client.configContent.value)
    ensures Truthy(c.currentServerIp) ==>
      r.client.currentServerIp == c.currentServerIp && r.client.serverListCache == c.serverListCache
    ensures Truthy(c.currentServerIp) && ProbePost(c, probe.millis, crypto).Err? ==>
      r == Step(c, Err(EncodeError))
    ensures Truthy(c.currentServerIp) && ProbePost(c, probe.millis, crypto).Ok? ==>
      var reply := probe.net(ProbePost(c, probe.millis, crypto).value);
      && (reply == Failed ==> r == Step(c, Err(Transport)))
      && (reply == Delivered("") ==> r == Step(c, Ok(())))
      && (reply.Delivered? && reply.text != "" && IsIdentifier(c.dataId) && IsIdentifier(c.group) ==>
            var again := refetch.net(ConfigGet(c, refetch.millis, crypto));
            r == if again.Delivered? then Step(c.(configContent := Some(again.text)), Ok(()))
                 else Step(c, Err(Transport)))
    ensures var res := ResolveServerIp(c, probe);
      && (res.result.Err? ==> r == Step(c, Err(res.result.error)))
      && (res.result.Ok? ==> r == SendProbe(res.client, probe, refetch, crypto))
  {
    var h := RequestHeader(c, probe, map[LongPullingTimeoutHeader := LongPullingTimeoutMillis], crypto);
    if h.result.Err? then Step(h.client, Err(h.result.error))
    else SendProbe(h.client, probe, refetch, crypto)
  }

  /** The `while self._is_close` loop, entered with `c`. Leaving normally clears the
      polling flag (and needs the subscription flag clear); leaving by an
      exception or by running out of rounds keeps it as it was. */
  function Poll(c: Client, rounds: seq<Round>, crypto: Crypto): (s: Session)
    ensures SameTarget(c, s.client)
    ensures s.status == Returned ==> !s.client.isClose && !s.client.isLongPulling
    ensures s.status != Returned ==> s.client.isLongPulling == c.isLongPulling
    ensures s.status == Polling ==> s.client.isClose
    ensures Truthy(c.currentServerIp) ==>
      s.client.currentServerIp == c.currentServerIp && s.client.serverListCache == c.serverListCache
    decreases |rounds|
  {
    if !c.isClose then Session(c.(isLongPulling := false), Returned)
    else if |rounds| == 0 then Session(c, Polling)
    else
      var step := CheckServerConfigInfo(c, rounds[0].probe, rounds[0].refetch, crypto);
      var next := if rounds[0].unsubscribed then Unsubscribe(step.client) else step.client;
      if step.result.Err? then Session(next, Raised(step.result.error))
      else Poll(next, rounds[1..], crypto)
  }

  /** `_start_long_pulling`: a no-op while a loop is already running; otherwise set
      the polling flag and run the loop. */
  function StartLongPulling(c: Client, rounds: seq<Round>, crypto: Crypto): (s: Session)
    ensures c.isLongPulling ==> s == Session(c, Returned)
    ensures SameTarget(c, s.client)
    ensures s.status == Returned ==> s.client.isLongPulling == c.isLongPulling
    ensures !c.isLongPulling && s.status == Returned ==> !s.client.isClose
    ensures !c.isLongPulling && s.status.Raised? ==> s.client.isLongPulling
    ensures s.status == Polling ==> s.client.isClose && s.client.isLongPulling
  {
    if c.isLongPulling then Session(c, Returned)
    else Poll(c.(isLongPulling := true), rounds, crypto)
  }

  /** `_start_long_pulling` as the source writes it: a guard, then a while loop. */
  method RunLongPulling(c: Client, rounds: seq<Round>, crypto: Crypto) returns (s: Session)
    ensures s == StartLongPulling(c, rounds, crypto)
    ensures SameTarget(c, s.client)
    ensures !c.isLongPulling && s.status == Returned ==> !s.client.isClose && !s.client.isLongPulling
    ensures !c.isLongPulling && s.status.Raised? ==> s.client.isLongPulling
  {
    if c.isLongPulling {
      return Session(c, Returned);
    }
    var cur := c.(isLongPulling := true);
    var i := 0;
    while cur.isClose
      invariant 0 <= i <= |rounds|
      invariant Poll(cur, rounds[i..], crypto) == StartLongPulling(c, rounds, crypto)
      decreases |rounds| - i
    {
      if i == |rounds| {
        return Session(cur, Polling);
      }
      var step := CheckServerConfigInfo(cur, rounds[i].probe, rounds[i].refetch, crypto);
      cur := if rounds[i].unsubscribed then Unsubscribe(step.client) else step.client;
      if step.result.Err? {
        return Session(cur, Raised(step.result.error));
      }
      assert rounds[i..][1..] == rounds[i + 1..];
      i := i + 1;
    }
    s := Session(cur.(isLongPulling := false), Returned);
  }

  /** `subscribe(data_id, group)`: validate both names (nothing changes if either
      fails), record the target, mark the client subscribed and start the loop. */
  function Subscribe(c: Client, dataId: string, group: string, rounds: seq<Round>, crypto: Crypto): (s: Session)
    ensures !IsIdentifier(dataId) ==> s == Session(c, Raised(InvalidDataId(dataId)))
    ensures IsIdentifier(dataId) && !IsIdentifier(group) ==> s == Session(c, Raised(InvalidGroup(group)))
    ensures IsIdentifier(dataId) && IsIdentifier(group) ==>
      s.client.dataId == dataId && s.client.group == group
    ensures IsIdentifier(dataId) && IsIdentifier(group) && !c.isLongPulling && s.status == Returned ==>
      !s.client.isClose && !s.client.isLongPulling
    ensures IsIdentifier(dataId) && IsIdentifier(group) && s.status.Raised? ==> s.client.isLongPulling
    ensures IsIdentifier(dataId) && IsIdentifier(group) && !c.isLongPulling ==>
      s == Poll(c.(dataId := dataId, group := group, isClose := true, isLongPulling := true), rounds, crypto)
    ensures IsIdentifier(dataId) && IsIdentifier(group) && c.isLongPulling ==>
      s == Session(c.(dataId := dataId, group := group, isClose := true), Returned)
  {
    if !CheckDataId(dataId) then Session(c, Raised(InvalidDataId(dataId)))
    else if !CheckGroup(group) then Session(c, Raised(InvalidGroup(group)))
    else StartLongPulling(c.(dataId := dataId, group := group, isClose := true), rounds, crypto)
  }

  /** A `subscribe` while the loop runs starts no second loop: it only records the
      target and the subscription. */
  lemma SubscribeWhilePolling(c: Client, dataId: string, group: string, rounds: seq<Round>, crypto: Crypto)
    requires c.isLongPulling && IsIdentifier(dataId) && IsIdentifier(group)
    ensures Subscribe(c, dataId, group, rounds, crypto)
         == Session(c.(dataId := dataId, group := group, isClose := true), Returned)
  {
  }

  /** After an exception escaped the loop the polling flag stays set, so every
      later `subscribe` returns at once without polling, whatever the network does. */
  lemma NoPollingAfterRaise(c: Client, rounds: seq<Round>, crypto: Crypto,
                            dataId: string, group: string, later: seq<Round>)
    ensures var stuck := StartLongPulling(c, rounds, crypto);
      stuck.status.Raised? && IsIdentifier(dataId) && IsIdentifier(group) ==>
        Subscribe(stuck.client, dataId, group, later, crypto)
          == Session(stuck.client.(dataId := dataId, group := group, isClose := true), Returned)
  {
    var stuck := StartLongPulling(c, rounds, crypto);
    if stuck.status.Raised? && IsIdentifier(dataId) && IsIdentifier(group) {
      assert stuck.client.isLongPulling;
      SubscribeWhilePolling(stuck.client, dataId, group, later, crypto);
    }
  }

  /** An `unsubscribe` is seen at the next loop test, which ends the loop and clears
      the polling flag without any further request. */
  lemma UnsubscribeEndsLoop(c: Client, rounds: seq<Round>, crypto: Crypto)
    ensures Poll(Unsubscribe(c), rounds, crypto) == Session(Unsubscribe(c).(isLongPulling := false), Returned)
  {
  }

  /** One round whose probe reports a change: with the address memoised and a
      valid target, the loop caches the re-fetched body, then keeps polling, or
      returns with both flags clear when the round was unsubscribed. */
  lemma ChangedRoundUpdatesContent(c: Client, r: Round, crypto: Crypto, p: string, t: string)
    requires c.isClose && Truthy(c.currentServerIp) && IsIdentifier(c.dataId) && IsIdentifier(c.group)
    requires ProbePost(c, r.probe.millis, crypto).Ok?
    requires r.probe.net(ProbePost(c, r.probe.millis, crypto).value) == Delivered(p) && p != ""
    requires r.refetch.net(ConfigGet(c, r.refetch.millis, crypto)) == Delivered(t)
    ensures Poll(c, [r], crypto)
         == if r.unsubscribed
            then Session(c.(configContent := Some(t), isClose := false, isLongPulling := false), Returned)
            else Session(c.(configContent := Some(t)), Polling)
  {
  }

  /** Cached content without a GBK form makes the next probe raise, which ends the
      loop with the polling flag still set. */
  lemma UnencodableContentRaises(c: Client, rounds: seq<Round>, crypto: Crypto)
    requires c.isClose && Truthy(c.currentServerIp) && |rounds| > 0
    requires Md5String(c.configContent, crypto).Err?
    ensures Poll(c, rounds, crypto)
         == Session(if rounds[0].unsubscribed then Unsubscribe(c) else c, Raised(EncodeError))
  {
  }

  /** While every probe reports "no change" the cached content stays as it was. */
  lemma {:induction false} QuietRoundsKeepContent(c: Client, rounds: seq<Round>, crypto: Crypto)
    requires forall i :: 0 <= i < |rounds| ==> QuietProbe(rounds[i].probe)
    ensures Poll(c, rounds, crypto).client.configContent == c.configContent
    decreases |rounds|
  {
    if c.isClose && |rounds| > 0 {
      var step := CheckServerConfigInfo(c, rounds[0].probe, rounds[0].refetch, crypto);
      var next := if rounds[0].unsubscribed then Unsubscribe(step.client) else step.client;
      if step.result.Ok? {
        QuietRoundsKeepContent(next, rounds[1..], crypto);
      }
    }
  }

  /** A subscribed client with a memoised address, whose probes all report "no
      change" and which nobody unsubscribes, is still polling after every round. */
  lemma {:induction false} UninterruptedLoopKeepsPolling(c: Client, rounds: seq<Round>, crypto: Crypto)
    requires c.isClose && Truthy(c.currentServerIp) && Md5String(c.configContent, crypto).Ok?
    requires forall i :: 0 <= i < |rounds| ==> !rounds[i].unsubscribed && QuietProbe(rounds[i].probe)
    ensures Poll(c, rounds, crypto).status == Polling
    decreases |rounds|
  {
    if |rounds| > 0 {
      var step := CheckServerConfigInfo(c, rounds[0].probe, rounds[0].refetch, crypto);
      var q := ProbePost(c, rounds[0].probe.millis, crypto).value;
      assert rounds[0].probe.net(q) == Delivered("");
      assert step.result.Ok?;
      UninterruptedLoopKeepsPolling(step.client, rounds[1..], crypto);
    }
  }
}

=== FILE: text.dfy ===
/** String helpers with the meaning of the Python built-ins the client uses:
    `str.split`, `str.join`, `str(int)` and `hexdigest()`.
 */
module Text {

  /** Python's `sep.join(parts)` for a one-character separator. */
  function Join(parts: seq<string>, sep: char): string
    decreases |parts|
  {
    if |parts| == 0 then ""
    else if |parts| == 1 then parts[0]
    else parts[0] + [sep] + Join(parts[1..], sep)
  }

  /** Python's `s.split(sep)`: the maximal separator-free pieces between separators.
      The empty string splits into one empty piece, as in Python. */
  function Split(s: string, sep: char): (parts: seq<string>)
    ensures |parts| > 0
    ensures forall i :: 0 <= i < |parts| ==> sep !in parts[i]
    ensures Join(parts, sep) == s
    decreases |s|
  {
    if |s| == 0 then [""]
    else
      var rest := Split(s[1..], sep);
      if s[0] == sep then
        assert s == [sep] + s[1..];
        [""] + rest
      else
        var head := [s[0]] + rest[0];
        assert ([head] + rest[1..])[1..] == rest[1..];
        assert s == [s[0]] + s[1..];
        [head] + rest[1..]
  }

  /** Splitting a separator-free string yields the string itself. */
  lemma {:induction false} SplitNoSeparator(s: string, sep: char)
    requires sep !in s
    ensures Split(s, sep) == [s]
    decreases |s|
  {
    if |s| > 0 {
      assert sep !in s[1..];
      SplitNoSeparator(s[1..], sep);
    }
  }

  /** A separator-free first piece is split off exactly. */
  lemma {:induction false} SplitCons(a: string, b: string, sep: char)
    requires sep !in a
    ensures Split(a + [sep] + b, sep) == [a] + Split(b, sep)
    decreases |a|
  {
    var s := a + [sep] + b;
    if |a| == 0 {
      assert s[1..] == b;
    } else {
      assert s[1..] == a[1..] + [sep] + b;
      assert sep !in a[1..];
      SplitCons(a[1..], b, sep);
      assert [a[0]] + a[1..] == a;
    }
  }

  /** `split` inverts `join` whenever no piece contains the separator. */
  lemma {:induction false} SplitJoin(parts: seq<string>, sep: char)
    requires |parts| > 0
    requires forall i :: 0 <= i < |parts| ==> sep !in parts[i]
    ensures Split(Join(parts, sep), sep) == parts
    decreases |parts|
  {
    if |parts| == 1 {
      SplitNoSeparator(parts[0], sep);
    } else {
      SplitJoin(parts[1..], sep);
      SplitCons(parts[0], Join(parts[1..], sep), sep);
      assert [parts[0]] + parts[1..] == parts;
    }
  }

  predicate IsDigit(c: char) {
    '0' <= c <= '9'
  }

  predicate IsDecimal(s: string) {
    |s| > 0 && forall i :: 0 <= i < |s| ==> IsDigit(s[i])
  }

  function DigitChar(d: nat): (c: char)
    requires d < 10
    ensures IsDigit(c)
  {
    ('0' as int + d) as char
  }

  /** The number a string of decimal digits denotes. */
  function DecimalValue(s: string): nat
    requires forall i :: 0 <= i < |s| ==> IsDigit(s[i])
    decreases |s|
  {
    if |s| == 0 then 0
    else
      assert IsDigit(s[|s| - 1]);
      10 * DecimalValue(s[..|s| - 1]) + (s[|s| - 1] as int - '0' as int)
  }

  /** Python's `str(n)` for a non-negative integer: no sign, no leading zero. */
  function Decimal(n: nat): (s: string)
    ensures IsDecimal(s)
    ensures DecimalValue(s) == n
    ensures s[0] == '0' ==> s == "0"
    decreases n
  {
    if n < 10 then [DigitChar(n)]
    else
      var prefix := Decimal(n / 10);
      var s := prefix + [DigitChar(n % 10)];
      assert s[..|s| - 1] == prefix;
      s
  }

  /** Distinct numbers print differently. */
  lemma DecimalInjective(m: nat, n: nat)
    requires Decimal(m) == Decimal(n)
    ensures m == n
  {
    assert DecimalValue(Decimal(m)) == m;
  }

  newtype Byte = b: int | 0 <= b < 256

  predicate IsHexChar(c: char) {
    '0' <= c <= '9' || 'a' <= c <= 'f'
  }

  predicate IsHexString(s: string) {
    forall i :: 0 <= i < |s| ==> IsHexChar(s[i])
  }

  function HexChar(d: nat): (c: char)
    requires d < 16
    ensures IsHexChar(c)
  {
    if d < 10 then ('0' as int + d) as char else ('a' as int + d - 10) as char
  }

  function HexCharValue(c: char): (d: nat)
    requires IsHexChar(c)
    ensures d < 16
    ensures HexChar(d) == c
  {
    if c <= '9' then c as int - '0' as int else c as int - 'a' as int + 10
  }

  /** `hexdigest()`: two lower-case hex digits per byte, high nibble first. */
  function HexEncode(bytes: seq<Byte>): (s: string)
    ensures |s| == 2 * |bytes|
    ensures IsHexString(s)
    decreases |bytes|
  {
    if |bytes| == 0 then ""
    else [HexChar(bytes[0] as int / 16), HexChar(bytes[0] as int % 16)] + HexEncode(bytes[1..])
  }

  /** Reads back a lower-case hex string, two digits per byte. */
  function HexDecode(s: string): seq<Byte>
    requires |s| % 2 == 0 && IsHexString(s)
    decreases |s|
  {
    if |s| == 0 then []
    else [(16 * HexCharValue(s[0]) + HexCharValue(s[1])) as Byte] + HexDecode(s[2..])
  }

  /** A hex digest determines the bytes it was made from. */
  lemma {:induction false} HexRoundTrip(bytes: seq<Byte>)
    ensures HexDecode(HexEncode(bytes)) == bytes
    decreases |bytes|
  {
    if |bytes| > 0 {
      var s := HexEncode(bytes);
      var b := bytes[0] as int;
      assert HexCharValue(s[0]) == b / 16 by {
        assert s[0] == HexChar(b / 16);
      }
      assert HexCharValue(s[1]) == b % 16 by {
        assert s[1] == HexChar(b % 16);
      }
      assert s[2..] == HexEncode(bytes[1..]);
      HexRoundTrip(bytes[1..]);
      assert [bytes[0]] + bytes[1..] == bytes;
    }
  }
}

=== FILE: utils.dfy ===
/** `acmclient/utils.py`: identifier validation, the content fingerprint and the
    request signature.

    MD5, HMAC-SHA1 (with the UTF-8 encoding and base64 around it) and the GBK
    encoder are library code; they enter the model as the functions of a `Crypto`
    value, which makes them pure and deterministic and says nothing else about
    them. The GBK encoder is partial: it fails on characters GBK lacks.
 */
module Utils {
  import opened Results
  import opened Text
  import opened Constants

  /** The foreign primitives: `HmacSHA1Encrypt(text, key)` (base64 of the HMAC-SHA1
      digest), `str.encode('gbk')` (`None` where Python raises `UnicodeEncodeError`)
      and the raw MD5 digest of a byte string. */
  datatype Crypto = Crypto(
    hmacSha1: (string, string) -> string,
    gbk: string -> Option<seq<Byte>>,
    md5: seq<Byte> -> seq<Byte>)

  /** Python's `\w`, restricted to ASCII: letters, digits and underscore. */
  predicate IsWordChar(c: char) {
    'a' <= c <= 'z' || 'A' <= c <= 'Z' || '0' <= c <= '9' || c == '_'
  }

  /** One character of the class `[\w\.\-\:]` of `REG_VALID_CHAR`. */
  predicate IsNameChar(c: char) {
    IsWordChar(c) || c == '.' || c == '-' || c == ':'
  }

  predicate IsName(s: string) {
    |s| > 0 && forall i :: 0 <= i < |s| ==> IsNameChar(s[i])
  }

  /** The language of `^[\w\.\-\:]+$` under `re.match`: a non-empty run of name
      characters, where Python's `$` also lets one trailing newline follow. */
  predicate IsIdentifier(s: string) {
    IsName(s) || (|s| > 1 && s[|s| - 1] == '\n' && IsName(s[..|s| - 1]))
  }

  /** Where the greedy `[\w\.\-\:]+` starting at `i` stops. */
  function NameRunEnd(s: string, i: nat): (k: nat)
    requires i <= |s|
    ensures i <= k <= |s|
    ensures forall j :: i <= j < k ==> IsNameChar(s[j])
    ensures k < |s| ==> !IsNameChar(s[k])
    decreases |s| - i
  {
    if i == |s| || !IsNameChar(s[i]) then i else NameRunEnd(s, i + 1)
  }

  /** `check_param_isvalid`: run the pattern's greedy class, then its `$`. */
  function CheckParamIsValid(value: string): (ok: bool)
    ensures ok <==> IsIdentifier(value)
  {
    var k := NameRunEnd(value, 0);
    if k == 0 then false
    else if k == |value| then
      assert IsName(value);
      true
    else if k == |value| - 1 && value[k] == '\n' then
      assert value[..k] == value[..|value| - 1];
      assert IsName(value[..k]);
      true
    else
      assert !IsNameChar(value[k]);
      false
  }

  /** `check_dataId` (imported by `app.py` under the name `check_data_id`). */
  function CheckDataId(dataId: string): (ok: bool)
    ensures ok <==> IsIdentifier(dataId)
  {
    CheckParamIsValid(dataId)
  }

  /** `check_group`. */
  function CheckGroup(group: string): (ok: bool)
    ensures ok <==> IsIdentifier(group)
  {
    CheckParamIsValid(group)
  }

  /** Any character outside the class sinks the identifier, except a newline in
      the very last position. */
  lemma ForeignCharRejected(s: string, i: nat)
    requires i < |s| && !IsNameChar(s[i])
    requires !(i == |s| - 1 && s[i] == '\n')
    ensures !CheckParamIsValid(s)
  {
    if |s| > 1 && s[|s| - 1] == '\n' {
      assert s[..|s| - 1][i] == s[i];
    }
  }

  /** A valid identifier never contains the probe's separators, `+`, `/` or a space. */
  lemma IdentifierCharacters(s: string, c: char)
    requires CheckParamIsValid(s)
    requires c in {LineSeparator, WordSeparator, '+', '/', ' '}
    ensures c !in s
  {
    if c in s {
      var i :| 0 <= i < |s| && s[i] == c;
      ForeignCharRejected(s, i);
    }
  }

  /** `get_md5_string`: `""` for an absent or empty value; otherwise the value is
      encoded as GBK, which raises when a character has no GBK form, and the result
      is the lower-case hex form of the MD5 digest of those bytes. */
  function Md5String(value: Option<string>, crypto: Crypto): (r: Result<string>)
    ensures value.None? || value.value == "" ==> r == Ok("")
    ensures value.Some? && value.value != "" ==> (r.Err? <==> crypto.gbk(value.value).None?)
    ensures r.Err? ==> r == Err(EncodeError)
    ensures r.Ok? ==> IsHexString(r.value)
    ensures r.Ok? && value.Some? && value.value != "" ==>
      var digest := crypto.md5(crypto.gbk(value.value).value);
      |r.value| == 2 * |digest| && HexDecode(r.value) == digest
  {
    match value
    case None => Ok("")
    case Some(v) =>
      if v == "" then Ok("")
      else
        match crypto.gbk(v)
        case None => Err(EncodeError)
        case Some(bytes) =>
          HexRoundTrip(crypto.md5(bytes));
          Ok(HexEncode(crypto.md5(bytes)))
  }
}
